=== FILE: README.md ===
# SCIM v2 User endpoint — a Dafny model

This project models the SCIM 2.0 User-provisioning server in `scim-server.py`
(a Flask application) with the web framework, the ORM and the socket layer
removed. What remains is the field mapping, validation and slicing that the
request handlers perform:

- the `User` record and its two mappings: copying a request body onto a user
  (`User.update`, used by the constructor and by PUT) and projecting a user
  to its SCIM JSON form (`User.to_scim_resource`, RFC 7643 section 4.1);
- the list envelope `ListResponse.to_scim_resource` (RFC 7644 section 3.4.2),
  the empty Groups listing and the SCIM error body (RFC 7644 section 3.12);
- PATCH (RFC 7644 section 3.5.2): the 400/501 checks on `schemas` and
  `Operations`, then the operation loop;
- the filter parser `re.match('(\w+) eq "([^"]*)"', f)` (RFC 7644
  section 3.4.2.2) and offset/limit paging (RFC 7644 section 3.4.2.4);
- the single-user GET, POST and PUT handlers over a table of users.

Request and response bodies are a `Json` datatype (`json.dfy`). Every handler
is a pure function from the table (`seq<User>`, in table order) and the
request to `Result<Exchange, Exception>`: an `Exchange` holds the table after
the request, the status, the body and the `Location` header; an `Exception`
is what Python lets escape (KeyError, TypeError, AttributeError and the ORM's
NoResultFound / MultipleResultsFound), which the server answers with a 500.

The user's columns hold `Json` values, because the handlers copy whatever
the client sent. Attributes that PATCH assigns under any other name go to an
`extras` map on the in-memory user; the table keeps only the columns
(`Users.Row`). Python's `in` and `[]` on decoded JSON are modelled exactly
(`python.dfy`): key test on a dict, element test on a list, substring test on
a str, TypeError otherwise; only a dict can be subscripted by a str.

The model keeps the behaviour of the code where it departs from the RFC or
from a natural reading:

- The PATCH guard at `scim-server.py:189` joins "no `op` key" and "`op` is not
  replace" with `and`. No operation is ever skipped: any operation with an
  `op` key is applied whatever its value (`Patch.OpValueIgnored`); a dict
  operation without `op` raises KeyError('op'), and a list or string
  operation without it raises TypeError. The evident intent is to apply only
  "replace" operations; the model follows the code as written.
- PATCH assigns every key of `value`, including `id` (`Patch.PatchCanRewriteId`).
- The PATCH check "PatchOp URN `in` `schemas`" is Python membership, so a
  `schemas` string that contains the URN, or an object with the URN as a key,
  passes as well as a list holding it.
- The listing reports `totalResults` as the size of the page and `startIndex`
  as the 0-based offset (`Listing.TotalResultsIsPageSize`).
- A lookup of an unknown id raises NoResultFound (a 500), not a 404.
- The POST `Location` header is built from the new user's `userName`, not its
  `id` (`scim-server.py:161-163`).

## Model

| member | source | states |
|---|---|---|
| Users.SetAttr | scim-server.py:192-193 | after `setattr(user, key, v)` the attribute `key` reads back as `v` and every other attribute, column or not, is unchanged |
| Users.Blank | scim-server.py:61-73 | a freshly constructed user reads every column as None and has no other attribute |
| Users.Attr | scim-server.py:61-71 | `getattr` on a user is defined exactly for the six columns and for attributes assigned under other names, and reads the latter from `extras` |
| Users.Update | scim-server.py:76-82 | copies `userName`/`active` exactly when present in the body and each name part exactly when present under `name`; `id` and other attributes never change; a body without `name` fails with KeyError('name'), a `name` that is null, a bool or a number fails with TypeError, and a body that is not an object always fails |
| Users.CopyIfPresent | scim-server.py:77-82 | copying one recognised key: from a dict, the key's value is assigned exactly when the key is present, otherwise the user is unchanged; `id` and other attributes never change; from a list or str source, TypeError when the membership test holds (a list or str cannot be subscripted by a str) and the user unchanged otherwise; anything else raises TypeError |
| Users.UpdateIdempotent | scim-server.py:76-82 | applying the same body twice gives the same user as applying it once |
| Users.NewUser | scim-server.py:63-74 | constructing a user from a body succeeds exactly when the update rule succeeds on a blank user; the stored row carries the assigned id, no extra attributes and the copied fields, and an `active` left None is stored as the column default false |
| Users.ToScimResource | scim-server.py:84-104 | the projection always has exactly the keys schemas/id/userName/name/active/meta, `schemas` is the core User URN, `name` has all three sub-keys even when unset, `meta.resourceType` is "User" and `meta.location` is the URL of the user's id; the values are the user's |
| Users.ProjectionRoundTrip | scim-server.py:84-104 | reading the columns back out of a projection gives the user's row: the projection loses nothing the table keeps |
| Users.UpdateFromProjection | scim-server.py:76-104 | using a user's projection as a PUT body copies every field of that user except `id` onto the target |
| Users.CreateThenProject | scim-server.py:151-158 | a user created from a body projects to the body's values where the body has them, to null where it does not, `active` to false when the body has no or a null `active`, and to the assigned id |
| Python.NatToDecimal | scim-server.py:111 | `str(n)` of a natural is a non-empty run of digits with no leading zero |
| Python.IntToDecimalRoundTrip | scim-server.py:111 | `int(str(n)) == n` for every integer |
| Python.IntToDecimal | scim-server.py:111 | `str(n)` is non-empty, starts with '-' exactly for negative n, and is digits otherwise |
| Python.Contains | scim-server.py:78-81 | Python `key in container`: key test on a dict, element test on a list, substring test on a str (true exactly when the key occurs at some position of the string), TypeError for anything else |
| Python.Index | scim-server.py:79-82 | Python `container[key]` with a str key succeeds exactly on a dict holding the key, with its value; KeyError for a dict without it, TypeError for anything else |
| Python.IsSubstring | scim-server.py:185 | Python `needle in hay` on two strings holds exactly when needle occurs at some position of hay |
| Python.Truthy | scim-server.py:55 | an optional count is truthy exactly when it is neither None nor 0 |
| Envelope.Projections | scim-server.py:52-54 | the resource list has one entry per user, in order, each the user's projection |
| Envelope.WithDefaults | scim-server.py:38-43 | `ListResponse(list)` keeps the list and defaults to startIndex 1, a falsy count and totalResults 0 |
| Envelope.ToScimResource | scim-server.py:45-58 | the envelope has `schemas` exactly the ListResponse URN, the given totalResults and startIndex, `Resources` of the same length and order as the list with each element that user's projection, and `itemsPerPage` present exactly when count is non-null and non-zero, equal to it |
| Envelope.ResourcesReadBack | scim-server.py:52-57 | every entry of `Resources` reads back as the row of the user at the same position |
| Envelope.GroupsGet | scim-server.py:225-228 | the Groups listing is always the envelope with totalResults 0, startIndex 1, empty Resources and no itemsPerPage |
| Envelope.ScimError | scim-server.py:107-113 | the error body has exactly schemas/detail/status, `schemas` the Error URN, `detail` the message, and `status` a string that reads back as the returned HTTP status |
| Store.IdHits | scim-server.py:147 | lists, in increasing order, exactly the positions of the rows with the given id |
| Store.FindById | scim-server.py:147 | `.one()` returns the position of the only row with the id when there is exactly one, NoResultFound exactly when there is none, MultipleResultsFound otherwise |
| Store.UniqueIdsFindAtMostOne | scim-server.py:63 | over a table with unique primary keys the lookup never finds several rows |
| FilterParser.WordRun | scim-server.py:205 | greedy `\w+`: the longest prefix of word characters |
| FilterParser.QuoteFreeRun | scim-server.py:205 | greedy `[^"]*`: the longest prefix without a double quote, stopped by a quote or the end |
| FilterParser.ParseFilter | scim-server.py:204-207 | `re.match` of the filter pattern: whatever it returns is a match of `attr eq "value"` at the start of the string (attr one or more word characters, value free of quotes) |
| FilterParser.ParseFilterComplete | scim-server.py:205 | every string that starts with `attr eq "value"` (attr one or more word characters, value free of quotes) parses to exactly those groups, whatever follows |
| FilterParser.ParseFilterExact | scim-server.py:205-207 | the parser returns `(attr, value)` if and only if the string starts with that match |
| FilterParser.ParseFilterNone | scim-server.py:204-209 | the parser finds no filter exactly when no prefix of the string has the shape `attr eq "value"`, and then every row is selected (see Listing.Select) |
| FilterParser.ParseFilterExample | scim-server.py:205-207 | `userName eq "bob"` parses to ("userName", "bob") |
| FilterParser.ParseFilterTrailingText | scim-server.py:205 | text after the closing quote is ignored, since the match is anchored at the start only |
| FilterParser.ParseFilterRejectsBareWord | scim-server.py:204-206 | `bogus` is not a filter |
| Listing.Offset | scim-server.py:211-214 | a startIndex below 1 counts as 1, and the offset is one less than the clamped startIndex |
| Listing.FilterBy | scim-server.py:208-209 | keeps exactly the users whose column equals the value, never more users than the table |
| Listing.FilterByAppend | scim-server.py:208-209 | filtering keeps table order (it distributes over concatenation) |
| Listing.Select | scim-server.py:202-209 | no filter, or one that does not parse, selects every row; a parsed filter on a column selects the matching rows; on anything else it raises AttributeError |
| Listing.Page | scim-server.py:215 | the page is the selected rows from the offset on, at most `count` of them, and empty when the offset is past the end |
| Listing.UsersGet | scim-server.py:199-222 | a listing leaves the table unchanged and answers 200 with a ListResponse envelope (its `schemas` the ListResponse URN) holding the page's projections in order, `totalResults` equal to the page length, `startIndex` equal to the 0-based offset and `itemsPerPage` present exactly when count is not 0, no other keys, and no `Location` header; it fails only when the filter names a non-column |
| Listing.FirstTwo | scim-server.py:210-217 | count 2 and startIndex 1 return the first two users in table order |
| Listing.EmptyTable | scim-server.py:199-222 | an empty table lists as 200 with totalResults 0 and an empty Resources |
| Listing.TotalResultsIsPageSize | scim-server.py:215-216 | with more rows than `count`, totalResults is `count`, not the number of rows |
| Patch.Validate | scim-server.py:179-186 | a body without `schemas` is answered 400 naming `schemas`, then one without `Operations` 400 naming `Operations`; with both, `schemas` is tested for the PatchOp URN by Python membership: 501 when it fails, proceed when it holds, TypeError when `schemas` is not a container; a list or str body with both names raises TypeError when subscripted; a body that is not a container raises TypeError |
| Patch.AssignAll | scim-server.py:192-193 | every key of the value object reads back as its value, and every other attribute keeps its value |
| Patch.SetEach | scim-server.py:192-193 | the `setattr` loop over a list of keys leaves each listed key with its value in the map and every other attribute unchanged |
| Patch.AssignAllIsSequentialSetAttr | scim-server.py:192-193 | assigning the keys one at a time, in any order listing each key once, gives the same user |
| Patch.ApplyOperation | scim-server.py:188-193 | an operation is applied exactly when it is an object with an `op` key of any value and an object `value`, and then all of `value` is assigned; one without `op` raises KeyError('op') |
| Patch.ApplySeq | scim-server.py:188-193 | the loop succeeds exactly when every operation is well formed |
| Patch.ApplyOperations | scim-server.py:188 | a list of operations is looped over in order; an empty dict or empty str changes nothing, and any other value (a non-empty dict or str, whose elements are strings that cannot be subscripted by a str, or an int, bool or null, which cannot be iterated) raises TypeError |
| Patch.ApplySeqUntouched | scim-server.py:188-193 | an attribute no operation assigns keeps its value |
| Patch.ApplySeqLastWriteWins | scim-server.py:188-193 | an attribute ends with the value from the last operation that assigns it |
| Patch.PatchUser | scim-server.py:187-196 | after the checks: an unknown id raises the lookup's exception; otherwise it succeeds exactly when the operation loop does, replacing only the found row with the looped user's columns and answering 200 with its projection and no `Location` header |
| Patch.OpValueIgnored | scim-server.py:189 | replacing the `op` value by anything (say "remove") does not change what the operation does |
| Patch.UsersPatch | scim-server.py:177-196 | a rejected body is answered with the check's status and message and the table unchanged; an exception from the checks escapes; on 200 the id was found, only that row changed, it holds the columns after the loop, the body is its projection, and no `Location` header is set |
| Patch.RejectedBeforeLookup | scim-server.py:180-187 | a rejected request gets the same answer whatever the table holds and whatever id it names, and leaves the table as it was |
| Patch.PatchCanRewriteId | scim-server.py:192-193 | a replace operation whose value has `id` moves the row to the new id |
| Handlers.UserGet | scim-server.py:145-148 | succeeds exactly when the id is found, leaves the table unchanged, and answers 200 with the found row's projection, which reads back as that row and carries the requested id, and no `Location` header |
| Handlers.UsersPost | scim-server.py:151-164 | succeeds exactly when the body can be copied onto a blank user; then the table gains exactly that user at the end, it is found by its fresh id, the status is 201, the body is the new user's projection and `Location` is the URL built from the user's `userName` |
| Handlers.UsersPut | scim-server.py:167-174 | an unknown id fails with the lookup's exception before the body is used; otherwise succeeds exactly when the update rule does, replacing only the found row, whose id stays the requested one, and answers 200 with that row's projection and no `Location` header |
| Handlers.PutThenGet | scim-server.py:145-174 | after a successful PUT, a GET of the same id answers 200 with exactly the body the PUT answered with |

## Left out

- Flask routing, `request.get_json` and `flask.jsonify`: handlers take the decoded body and return the response as data.
- `url_for`: the URL builder is the opaque parameter `locate`, a function from a JSON value to a URL.
- The SQLAlchemy session and `commit`: a handled request yields the new table; a request that raises leaves it unchanged, since the request's session is discarded, uncommitted, when the request ends.
- The database's constraints (unique non-null `userName`, primary-key `id`) and its type coercion of stored values: a commit always succeeds and stores the JSON values as given. The one insert rule modelled is the column default of `active` (Users.NewUser).
- Listing.Select: the column type's handling of the filter value is not modelled; the value is compared as a string with the column's JSON value, so `active eq "true"` selects no rows, where the Boolean column type rejects the string and the request fails.
- The table's order: the sequence order stands for whatever order the database returns.
- `send_to_browser`, the socketio `connect`/`disconnect` handlers and `render_template`: broadcast and page transport.
- `uuid.uuid4()`: POST takes the new id as a parameter, required not to be in the table.
- `int()` parsing of `count` and `startIndex`: they arrive as integers, and `count` is not negative.
- `getattr(User, name)` in the filter for names that are class attributes but not columns: every non-column name raises AttributeError.
- `\w` in the filter pattern is taken as ASCII letters, digits and `_` instead of Python's Unicode word characters.
- `setattr` of names with special meaning to Python or SQLAlchemy (such as `query` or `_sa_instance_state`): every non-column name is a plain attribute.
- JSON numbers other than integers, and Python's equality of `True` with `1`.
- The `/db` route and the `__main__` startup.
- Envelope.ScimError: the default `status_code` of 500 is not modelled as a default argument; the function is also not called by any handler.
- Users.Update: the contract does not state the outcome when `name` is a list or a string, where Python's membership test on those decides; the function itself models it.

=== FILE: envelope.dfy ===
/** The list envelope of RFC 7644 section 3.4.2 and the error body of
    RFC 7644 section 3.12, as the server builds them. */
module Envelope {
  import opened Wrappers
  import opened JsonValue
  import opened Python
  import opened Users

  const ListResponseSchema: string := "urn:ietf:params:scim:api:messages:2.0:ListResponse"
  const ErrorSchema: string := "urn:ietf:params:scim:api:messages:2.0:Error"

  /** The values a list envelope reports. The envelope does no slicing: it
      reports whatever the caller passes. */
  datatype ListResponse = ListResponse(
    list: seq<User>,
    startIndex: int,
    count: Option<int>,
    totalResults: int)

  /** `ListResponse(list)` with the constructor's defaults. */
  function WithDefaults(list: seq<User>): (lr: ListResponse)
    ensures lr.list == list && lr.startIndex == 1 && lr.totalResults == 0
    ensures !Truthy(lr.count)
  {
    ListResponse(list, 1, None, 0)
  }

  /** The projection of every user of `list`, in order. */
  function Projections(list: seq<User>, locate: Json -> string): (rs: seq<Json>)
    ensures |rs| == |list|
    ensures forall i :: 0 <= i < |list| ==> rs[i] == Users.ToScimResource(list[i], locate)
  {
    if |list| == 0 then []
    else [Users.ToScimResource(list[0], locate)] + Projections(list[1..], locate)
  }

  /** `ListResponse.to_scim_resource()`. */
  function ToScimResource(lr: ListResponse, locate: Json -> string): (r: Json)
    ensures r.JObject?
    ensures r.fields.Keys == {"schemas", "totalResults", "startIndex", "Resources"}
                             + (if Truthy(lr.count) then {"itemsPerPage"} else {})
    ensures r.fields["schemas"] == JArray([JString(ListResponseSchema)])
    ensures r.fields["totalResults"] == JInt(lr.totalResults)
    ensures r.fields["startIndex"] == JInt(lr.startIndex)
    ensures "itemsPerPage" in r.fields <==> Truthy(lr.count)
    ensures "itemsPerPage" in r.fields ==> r.fields["itemsPerPage"] == JInt(lr.count.value)
    ensures r.fields["Resources"].JArray?
    ensures |r.fields["Resources"].items| == |lr.list|
    ensures forall i :: 0 <= i < |lr.list| ==>
              r.fields["Resources"].items[i] == Users.ToScimResource(lr.list[i], locate)
  {
    var base := map[
      "schemas" := JArray([JString(ListResponseSchema)]),
      "totalResults" := JInt(lr.totalResults),
      "startIndex" := JInt(lr.startIndex),
      "Resources" := JArray(Projections(lr.list, locate))];
    if Truthy(lr.count) then JObject(base["itemsPerPage" := JInt(lr.count.value)])
    else JObject(base)
  }

  /** Every resource of an envelope reads back as the row of the user it
      came from. */
  lemma ResourcesReadBack(lr: ListResponse, locate: Json -> string, i: nat)
    requires i < |lr.list|
    ensures var items := ToScimResource(lr, locate).fields["Resources"].items;
            FromScimResource(items[i]) == Some(Row(lr.list[i]))
  {
    ProjectionRoundTrip(lr.list[i], locate);
  }

  /** The body of `GET /scim/v2/Groups`: an empty envelope built with every
      constructor default, hence without `itemsPerPage`. */
  function GroupsGet(locate: Json -> string): (r: Json)
    ensures r == JObject(map[
      "schemas" := JArray([JString(ListResponseSchema)]),
      "totalResults" := JInt(0),
      "startIndex" := JInt(1),
      "Resources" := JArray([])])
  {
    ToScimResource(WithDefaults([]), locate)
  }

  /** `scim_error(message, status_code)`: the SCIM error body, paired with
      the HTTP status. The body's `status` is the code written in decimal. */
  function ScimError(message: string, statusCode: int): (r: (Json, int))
    ensures r.1 == statusCode
    ensures r.0.JObject? && r.0.fields.Keys == {"schemas", "detail", "status"}
    ensures r.0.fields["schemas"] == JArray([JString(ErrorSchema)])
    ensures r.0.fields["detail"] == JString(message)
    ensures r.0.fields["status"].JString?
    ensures ParseDecimal(r.0.fields["status"].s) == Some(statusCode)
  {
    IntToDecimalRoundTrip(statusCode);
    (JObject(map[
       "schemas" := JArray([JString(ErrorSchema)]),
       "detail" := JString(message),
       "status" := JString(IntToDecimal(statusCode))]),
     statusCode)
  }
}

=== FILE: filter.dfy ===
/** The `filter` query parameter: Python's `re.match('(\w+) eq "([^"]*)"', f)`.
    The match is anchored at the start of the string only, so anything may
    follow the closing quote. `\w` is taken as ASCII letters, digits and `_`. */
module FilterParser {
  import opened Wrappers

  /** The text between the attribute name and the value. */
  const EqOpen: string := " eq \""

  predicate IsWordChar(c: char) {
    ('a' <= c <= 'z') || ('A' <= c <= 'Z') || ('0' <= c <= '9') || c == '_'
  }

  predicate AllWord(s: string) {
    forall i :: 0 <= i < |s| ==> IsWordChar(s[i])
  }

  predicate NoQuote(s: string) {
    forall i :: 0 <= i < |s| ==> s[i] != '"'
  }

  /** `s` starts with `attr eq "value"`, where `attr` is one or more word
      characters and `value` holds no double quote. */
  predicate Shape(s: string, attr: string, value: string) {
    && |attr| >= 1
    && AllWord(attr)
    && NoQuote(value)
    && attr + EqOpen + value + "\"" <= s
  }

  /** Length of the longest prefix of word characters (what greedy `\w+`
      consumes). */
  function WordRun(s: string): (n: nat)
    ensures n <= |s|
    ensures AllWord(s[..n])
    ensures n < |s| ==> !IsWordChar(s[n])
    decreases |s|
  {
    if |s| > 0 && IsWordChar(s[0]) then
      var n := 1 + WordRun(s[1..]);
      assert s[..n] == [s[0]] + s[1..][..n - 1];
      n
    else 0
  }

  /** Length of the longest prefix without a double quote (what greedy
      `[^"]*` consumes). */
  function QuoteFreeRun(s: string): (n: nat)
    ensures n <= |s|
    ensures NoQuote(s[..n])
    ensures n < |s| ==> s[n] == '"'
    decreases |s|
  {
    if |s| > 0 && s[0] != '"' then
      var n := 1 + QuoteFreeRun(s[1..]);
      assert s[..n] == [s[0]] + s[1..][..n - 1];
      n
    else 0
  }

  /** The groups `(attribute, value)` of the match, `None` when the pattern
      does not match. Greedy runs never need to back off here: a shorter
      `\w+` is followed by a word character, not a space, and a shorter
      `[^"]*` by a character that is not a quote. */
  function ParseFilter(s: string): (r: Option<(string, string)>)
    ensures r.Some? ==> Shape(s, r.value.0, r.value.1)
  {
    var n := WordRun(s);
    if n == 0 || !(EqOpen <= s[n..]) then None
    else
      var tail := s[n + |EqOpen|..];
      var m := QuoteFreeRun(tail);
      if m < |tail| then
        assert s[..n + |EqOpen| + m + 1] == s[..n] + s[n..n + |EqOpen|] + tail[..m] + [tail[m]];
        Some((s[..n], tail[..m]))
      else None
  }

  /** Every string that starts with the pattern yields its groups. */
  lemma ParseFilterComplete(s: string, attr: string, value: string)
    requires Shape(s, attr, value)
    ensures ParseFilter(s) == Some((attr, value))
  {
    var prefix := attr + EqOpen + value + "\"";
    var n := |attr|;
    assert s[..|prefix|] == prefix;
    assert s[..n] == attr;
    assert s[n] == ' ';
    assert WordRun(s) == n;
    assert s[n..][..|EqOpen|] == EqOpen;
    var tail := s[n + |EqOpen|..];
    assert tail[..|value|] == value;
    assert tail[|value|] == '"';
    assert QuoteFreeRun(tail) == |value|;
  }

  /** The parser succeeds exactly on strings that start with the pattern,
      and then returns its groups. */
  lemma ParseFilterExact(s: string, attr: string, value: string)
    ensures ParseFilter(s) == Some((attr, value)) <==> Shape(s, attr, value)
  {
    if Shape(s, attr, value) {
      ParseFilterComplete(s, attr, value);
    }
  }

  /** Any string that does not start with the pattern is no filter at all. */
  lemma ParseFilterNone(s: string)
    ensures ParseFilter(s).None? <==> forall attr, value :: !Shape(s, attr, value)
  {
    forall attr, value | Shape(s, attr, value)
      ensures ParseFilter(s).Some?
    {
      ParseFilterComplete(s, attr, value);
    }
  }

  /** `userName eq "bob"` parses to its two groups. */
  lemma ParseFilterExample()
    ensures ParseFilter("userName eq \"bob\"") == Some(("userName", "bob"))
  {
    var hit := "userName" + EqOpen + "bob" + "\"";
    assert hit == "userName eq \"bob\"";
    ParseFilterComplete(hit, "userName", "bob");
  }

  /** Text after the closing quote is ignored. */
  lemma ParseFilterTrailingText(s: string)
    ensures ParseFilter("userName eq \"bob\"" + s) == Some(("userName", "bob"))
  {
    var hit := "userName" + EqOpen + "bob" + "\"";
    assert hit == "userName eq \"bob\"";
    assert hit <= hit + s;
    ParseFilterComplete(hit + s, "userName", "bob");
  }

  /** `bogus` has no ` eq "` after its word, so it is not a filter. */
  lemma ParseFilterRejectsBareWord()
    ensures ParseFilter("bogus") == None
  {
    assert AllWord("bogus");
  }
}

=== FILE: handlers.dfy ===
/** The single-user endpoints: read one user, create one, replace one. The
    broadcast of each returned projection to connected browsers is not part
    of the model. */
module Handlers {
  import opened Wrappers
  import opened JsonValue
  import opened Python
  import opened Users
  import opened Store
  import opened Http

  /** `GET /scim/v2/Users/<id>`. */
  function UserGet(store: seq<User>, userId: string, locate: Json -> string): (r: Result<Exchange, Exception>)
    ensures r.Success? <==> FindById(store, userId).Success?
    ensures r.Success? ==> r.value.store == store && r.value.status == 200 && r.value.body.JsonBody?
    ensures r.Success? ==> FromScimResource(r.value.body.json) == Some(Row(store[FindById(store, userId).value]))
    ensures r.Success? ==> r.value.body.json.fields["id"] == JString(userId)
    ensures r.Success? ==>
              && r.value.body == JsonBody(Users.ToScimResource(store[FindById(store, userId).value], locate))
              && r.value.location.None?
  {
    var i :- FindById(store, userId);
    ProjectionRoundTrip(store[i], locate);
    Success(Exchange(store, 200, JsonBody(Users.ToScimResource(store[i], locate)), None))
  }

  /** `POST /scim/v2/Users`. `freshId` stands for the random id the server
      draws, which is not yet in the table. The `Location` header is built
      from the new user's `userName`, not from its `id`. */
  function UsersPost(store: seq<User>, resource: Json, freshId: string, locate: Json -> string)
    : (r: Result<Exchange, Exception>)
    requires forall i :: 0 <= i < |store| ==> store[i].id != JString(freshId)
    ensures r.Success? <==> NewUser(resource, freshId).Success?
    ensures r.Success? ==>
              && |r.value.store| == |store| + 1
              && r.value.store[..|store|] == store
              && r.value.store[|store|] == NewUser(resource, freshId).value
              && FindById(r.value.store, freshId) == Success(|store|)
              && r.value.status == 201
              && r.value.location == Some(locate(NewUser(resource, freshId).value.userName))
              && r.value.body == JsonBody(Users.ToScimResource(r.value.store[|store|], locate))
  {
    var u :- NewUser(resource, freshId);
    var store' := store + [Row(u)];
    assert store'[..|store|] == store;
    Success(Exchange(store', 201, JsonBody(Users.ToScimResource(u, locate)), Some(locate(u.userName))))
  }

  /** `PUT /scim/v2/Users/<id>`: the lookup comes first, so an unknown id
      raises NoResultFound even for a body without `name`. */
  function UsersPut(store: seq<User>, userId: string, resource: Json, locate: Json -> string)
    : (r: Result<Exchange, Exception>)
    ensures FindById(store, userId).Failure? ==> r == Failure(FindById(store, userId).error)
    ensures FindById(store, userId).Success? ==>
              var i := FindById(store, userId).value;
              && (r.Success? <==> Update(store[i], resource).Success?)
              && (r.Success? ==>
                    && r.value.status == 200
                    && r.value.store == store[i := Row(Update(store[i], resource).value)]
                    && r.value.store[i].id == JString(userId)
                    && r.value.body == JsonBody(Users.ToScimResource(r.value.store[i], locate))
                    && r.value.location.None?)
  {
    var i :- FindById(store, userId);
    var u :- Update(store[i], resource);
    Success(Exchange(store[i := Row(u)], 200, JsonBody(Users.ToScimResource(u, locate)), None))
  }

  /** After a successful PUT, reading the user back gives the body PUT
      answered with. */
  lemma PutThenGet(store: seq<User>, userId: string, resource: Json, locate: Json -> string)
    requires UsersPut(store, userId, resource, locate).Success?
    ensures var put := UsersPut(store, userId, resource, locate).value;
            UserGet(put.store, userId, locate) == Success(Exchange(put.store, 200, put.body, None))
  {
    var put := UsersPut(store, userId, resource, locate).value;
    var i := FindById(store, userId).value;
    assert FindById(put.store, userId) == Success(i);
  }
}

=== FILE: http.dfy ===
/** What a request handler hands back: the table after the request and the
    HTTP response it sends. */
module Http {
  import opened Wrappers
  import opened JsonValue
  import opened Users

  /** A JSON response body or a plain-text one. */
  datatype Body = JsonBody(json: Json) | TextBody(text: string)

  /** The outcome of a handled request. `location` is the `Location` header,
      when one is set. */
  datatype Exchange = Exchange(
    store: seq<User>,
    status: int,
    body: Body,
    location: Option<string>)
}

=== FILE: json.dfy ===
/** JSON documents as the server receives and produces them. */
module JsonValue {

  /** A decoded JSON value. Numbers are integers only; objects are maps
      from key to value (key order is not part of the model). */
  datatype Json =
    | JNull
    | JBool(b: bool)
    | JInt(i: int)
    | JString(s: string)
    | JArray(items: seq<Json>)
    | JObject(fields: map<string, Json>)
}

=== FILE: listing.dfy ===
/** `GET /scim/v2/Users` (RFC 7644 sections 3.4.2, 3.4.2.2 and 3.4.2.4), as
    written: an optional `attribute eq "value"` filter, then offset/limit
    paging. Two deviations from the RFC are kept: `totalResults` is the size
    of the page rather than of the filtered set, and the reported
    `startIndex` is the 0-based offset. */
module Listing {
  import opened Wrappers
  import opened JsonValue
  import opened Python
  import opened Users
  import opened FilterParser
  import opened Http
  import Envelope

  /** `count` when the query does not give one. */
  const DefaultCount: nat := 100

  /** The 0-based offset for a requested `startIndex`: values below 1 count
      as 1. */
  function Offset(startIndex: int): (offset: nat)
    ensures startIndex >= 1 ==> offset + 1 == startIndex
    ensures startIndex < 1 ==> offset == 0
  {
    if startIndex < 1 then 0 else startIndex - 1
  }

  /** The users whose column `column` equals `value`, in table order. */
  function FilterBy(store: seq<User>, column: string, value: Json): (r: seq<User>)
    requires column in Columns
    ensures |r| <= |store|
    ensures forall u :: u in r <==> u in store && Attr(u, column) == Some(value)
    decreases |store|
  {
    if |store| == 0 then []
    else
      var rest := FilterBy(store[1..], column, value);
      assert forall u :: u in store <==> u == store[0] || u in store[1..];
      if Attr(store[0], column) == Some(value) then [store[0]] + rest else rest
  }

  /** Filtering keeps table order: it distributes over concatenation. */
  lemma {:induction false} FilterByAppend(s1: seq<User>, s2: seq<User>, column: string, value: Json)
    requires column in Columns
    ensures FilterBy(s1 + s2, column, value) == FilterBy(s1, column, value) + FilterBy(s2, column, value)
    decreases |s1|
  {
    if |s1| > 0 {
      assert (s1 + s2)[1..] == s1[1..] + s2;
      assert (s1 + s2)[0] == s1[0];
      FilterByAppend(s1[1..], s2, column, value);
    } else {
      assert s1 + s2 == s2;
    }
  }

  /** The rows the query selects before paging. Without a filter, or with
      one that does not match the pattern, every row is selected; a filter
      naming something other than a column raises AttributeError. */
  function Select(store: seq<User>, filter: Option<string>): (r: Result<seq<User>, Exception>)
    ensures (filter.None? || ParseFilter(filter.value).None?) ==> r == Success(store)
    ensures filter.Some? && ParseFilter(filter.value).Some? ==>
              var (attr, value) := ParseFilter(filter.value).value;
              r == if attr in Columns then Success(FilterBy(store, attr, JString(value)))
                   else Failure(AttributeError(attr))
  {
    // an empty filter string is falsy and skips the match; the pattern
    // would not match it anyway
    if filter.None? || filter.value == "" then Success(store)
    else
      match ParseFilter(filter.value)
      case None => Success(store)
      case Some((attr, value)) =>
        if attr in Columns then Success(FilterBy(store, attr, JString(value)))
        else Failure(AttributeError(attr))
  }

  /** `.offset(offset).limit(count)` over the selected rows. */
  function Page(rows: seq<User>, offset: nat, count: nat): (page: seq<User>)
    ensures offset >= |rows| ==> page == []
    ensures |page| == if offset >= |rows| then 0 else Min(count, |rows| - offset)
    ensures forall i :: 0 <= i < |page| ==> page[i] == rows[offset + i]
  {
    if offset >= |rows| then [] else rows[offset..offset + Min(count, |rows| - offset)]
  }

  function Min(a: nat, b: nat): nat {
    if a <= b then a else b
  }

  /** The envelope of one page: the page's projections in order,
      `totalResults` equal to the page's length, the 0-based offset as
      `startIndex`, and `itemsPerPage` present exactly when `count` is not 0. */
  predicate IsPageEnvelope(env: Json, rows: seq<User>, offset: nat, count: nat, locate: Json -> string) {
    var n := if offset >= |rows| then 0 else Min(count, |rows| - offset);
    && env.JObject?
    && env.fields.Keys == {"schemas", "totalResults", "startIndex", "Resources"}
                          + (if count != 0 then {"itemsPerPage"} else {})
    && "schemas" in env.fields && env.fields["schemas"] == JArray([JString(Envelope.ListResponseSchema)])
    && "Resources" in env.fields && env.fields["Resources"].JArray?
    && |env.fields["Resources"].items| == n
    && (forall i :: 0 <= i < n ==> env.fields["Resources"].items[i] == Users.ToScimResource(rows[offset + i], locate))
    && "totalResults" in env.fields && env.fields["totalResults"] == JInt(n)
    && "startIndex" in env.fields && env.fields["startIndex"] == JInt(offset)
    && ("itemsPerPage" in env.fields <==> count != 0)
    && (count != 0 ==> env.fields["itemsPerPage"] == JInt(count))
  }

  /** `users_get()` with the query parameters already converted to integers. */
  function UsersGet(store: seq<User>, filter: Option<string>, count: Option<nat>,
                    startIndex: Option<int>, locate: Json -> string): (r: Result<Exchange, Exception>)
    ensures Select(store, filter).Failure? ==> r == Failure(Select(store, filter).error)
    ensures Select(store, filter).Success? ==>
              && r.Success?
              && r.value.store == store
              && r.value.status == 200
              && r.value.location.None?
              && r.value.body.JsonBody?
              && IsPageEnvelope(r.value.body.json, Select(store, filter).value,
                                Offset(startIndex.GetOr(1)), count.GetOr(DefaultCount), locate)
  {
    var rows :- Select(store, filter);
    var limit := count.GetOr(DefaultCount);
    var offset := Offset(startIndex.GetOr(1));
    var found := Page(rows, offset, limit);
    var envelope := Envelope.ListResponse(found, offset, Some(limit), |found|);
    Success(Exchange(store, 200, JsonBody(Envelope.ToScimResource(envelope, locate)), None))
  }

  /** `count=2&startIndex=1` over at least two users returns the first two,
      in table order. */
  lemma FirstTwo(store: seq<User>, locate: Json -> string)
    requires |store| >= 2
    ensures var r := UsersGet(store, None, Some(2), Some(1), locate);
            r.Success? && r.value.body.json.fields["Resources"]
              == JArray([Users.ToScimResource(store[0], locate), Users.ToScimResource(store[1], locate)])
  {
    var r := UsersGet(store, None, Some(2), Some(1), locate);
    assert Offset(1) == 0;
    FirstTwoOfEnvelope(r.value.body.json, store, locate);
  }

  /** A page of two taken from offset 0 lists the first two rows. */
  lemma FirstTwoOfEnvelope(env: Json, store: seq<User>, locate: Json -> string)
    requires |store| >= 2 && IsPageEnvelope(env, store, 0, 2, locate)
    ensures env.fields["Resources"]
              == JArray([Users.ToScimResource(store[0], locate), Users.ToScimResource(store[1], locate)])
  {
    var resources := env.fields["Resources"];
    PairOf(resources.items, Users.ToScimResource(store[0], locate), Users.ToScimResource(store[1], locate));
  }

  /** A two-element sequence is the display of its elements. */
  lemma PairOf<T>(items: seq<T>, a: T, b: T)
    requires |items| == 2 && items[0] == a && items[1] == b
    ensures items == [a, b]
  {
  }

  /** An empty table lists as 200 with `totalResults` 0 and no resources. */
  lemma EmptyTable(filter: Option<string>, count: Option<nat>, startIndex: Option<int>, locate: Json -> string)
    requires Select([], filter).Success?
    ensures var r := UsersGet([], filter, count, startIndex, locate);
            && r.Success? && r.value.status == 200
            && r.value.body.json.fields["totalResults"] == JInt(0)
            && r.value.body.json.fields["Resources"] == JArray([])
  {
  }

  /** `totalResults` undercounts: with more matching rows than `count`, the
      envelope reports the page size, not the number of matches. */
  lemma TotalResultsIsPageSize(store: seq<User>, count: nat, locate: Json -> string)
    requires 0 < count < |store|
    ensures var r := UsersGet(store, None, Some(count), None, locate);
            r.Success? && r.value.body.json.fields["totalResults"] == JInt(count)
  {
  }
}

=== FILE: patch.dfy ===
/** `PATCH /scim/v2/Users/<id>` (RFC 7644 section 3.5.2), as the handler is
    written: the request checks, then the operation loop. The loop's guard
    combines "no `op` key" with "`op` is not replace" by `and`, so it never
    skips an operation: an operation with an `op` key is applied whatever
    the key's value, and one without raises KeyError. */
module Patch {
  import opened Wrappers
  import opened JsonValue
  import opened Python
  import opened Users
  import opened Store
  import opened Http

  const PatchOpSchema: string := "urn:ietf:params:scim:api:messages:2.0:PatchOp"
  const UnsupportedSchemaMessage: string := "The 'schemas' type in this request is not supported."

  function MissingAttributeMessage(attribute: string): string {
    "Payload must contain '" + attribute + "' attribute."
  }

  /** The request checks either let the request through or answer it with a
      status and a plain-text message. */
  datatype Verdict = Proceed | Reject(status: int, message: string)

  /** The checks on the body that run before the user is looked up: `schemas`
      then `Operations` must be keys of the body (400 otherwise), and the
      PatchOp URN must be `in` the `schemas` value (501 otherwise). */
  function Validate(body: Json): (r: Result<Verdict, Exception>)
    ensures body.JObject? && "schemas" !in body.fields ==>
              r == Success(Reject(400, MissingAttributeMessage("schemas")))
    ensures body.JObject? && "schemas" in body.fields && "Operations" !in body.fields ==>
              r == Success(Reject(400, MissingAttributeMessage("Operations")))
    ensures body.JObject? && "schemas" in body.fields && "Operations" in body.fields
            && body.fields["schemas"].JArray? ==>
              r == (if JString(PatchOpSchema) in body.fields["schemas"].items
                    then Success(Proceed) else Success(Reject(501, UnsupportedSchemaMessage)))
    ensures body.JObject? && "schemas" in body.fields && "Operations" in body.fields ==>
              r == (if Contains(body.fields["schemas"], PatchOpSchema).Failure? then Failure(TypeError)
                    else if Contains(body.fields["schemas"], PatchOpSchema).value then Success(Proceed)
                    else Success(Reject(501, UnsupportedSchemaMessage)))
    ensures body.JArray? || body.JString? ==>
              r == (if !Contains(body, "schemas").value
                    then Success(Reject(400, MissingAttributeMessage("schemas")))
                    else if !Contains(body, "Operations").value
                    then Success(Reject(400, MissingAttributeMessage("Operations")))
                    else Failure(TypeError))
    ensures r == Success(Proceed) ==>
              body.JObject? && "schemas" in body.fields && "Operations" in body.fields
    ensures !(body.JObject? || body.JArray? || body.JString?) ==> r == Failure(TypeError)
  {
    var hasSchemas :- Contains(body, "schemas");
    if !hasSchemas then Success(Reject(400, MissingAttributeMessage("schemas")))
    else
      // the first `in` succeeded, so the body is a dict, list or str and
      // this one cannot raise
      var hasOperations := Contains(body, "Operations").value;
      if !hasOperations then Success(Reject(400, MissingAttributeMessage("Operations")))
      else
        var schemas :- Index(body, "schemas");
        var supported :- Contains(schemas, PatchOpSchema);
        if !supported then Success(Reject(501, UnsupportedSchemaMessage)) else Success(Proceed)
  }

  /** Assigns every key of `m` onto the user, as `setattr` in a loop over
      `m.keys()` does; since the keys are distinct the order does not matter
      (see `AssignAllIsSequentialSetAttr`). */
  function AssignAll(u: User, m: map<string, Json>): (r: User)
    ensures forall k :: k in m ==> Attr(r, k) == Some(m[k])
    ensures forall k :: k !in m ==> Attr(r, k) == Attr(u, k)
    ensures Valid(u) ==> Valid(r)
  {
    User(
      Pick(m, "id", u.id),
      Pick(m, "userName", u.userName),
      Pick(m, "active", u.active),
      Pick(m, "givenName", u.givenName),
      Pick(m, "middleName", u.middleName),
      Pick(m, "familyName", u.familyName),
      u.extras + map k | k in m && k !in Columns :: m[k])
  }

  /** `setattr` for each key of `keys` in turn: a listed key ends with its
      value in `m`, any other attribute keeps its value. */
  function SetEach(u: User, keys: seq<string>, m: map<string, Json>): (r: User)
    requires forall i :: 0 <= i < |keys| ==> keys[i] in m
    ensures forall k :: Attr(r, k) == (if k in keys then Some(m[k]) else Attr(u, k))
    ensures Valid(u) ==> Valid(r)
    decreases |keys|
  {
    if |keys| == 0 then u
    else
      var r := SetEach(SetAttr(u, keys[0], m[keys[0]]), keys[1..], m);
      assert forall k :: k in keys <==> k == keys[0] || k in keys[1..];
      r
  }

  /** Assigning the keys of a value one after another, in any order that
      lists each key, gives `AssignAll`. */
  lemma AssignAllIsSequentialSetAttr(u: User, keys: seq<string>, m: map<string, Json>)
    requires Valid(u)
    requires forall k :: k in m <==> k in keys
    ensures SetEach(u, keys, m) == AssignAll(u, m)
  {
    var r := SetEach(u, keys, m);
    AttrExtensional(r, AssignAll(u, m));
  }

  /** An operation the loop accepts: an object with an `op` key (of any
      value) and a `value` key whose value is an object. */
  predicate WellFormedOp(op: Json) {
    && op.JObject?
    && "op" in op.fields
    && "value" in op.fields
    && op.fields["value"].JObject?
  }

  /** One pass of the operation loop. */
  function ApplyOperation(u: User, op: Json): (r: Result<User, Exception>)
    ensures r.Success? <==> WellFormedOp(op)
    ensures WellFormedOp(op) ==> r == Success(AssignAll(u, op.fields["value"].fields))
    ensures op.JObject? && "op" !in op.fields ==> r == Failure(KeyError("op"))
  {
    var present :- Contains(op, "op");
    if !present then
      // `'op' not in operation` holds, so the guard goes on to evaluate
      // `operation['op']`, which raises: the key is missing from a dict, and a
      // list or str cannot be subscripted by a str
      Failure(Index(op, "op").error)
    else
      // the guard is false as soon as the `op` key is present: no `continue`
      var value :- Index(op, "value");
      if value.JObject? then Success(AssignAll(u, value.fields))
      else Failure(AttributeError("keys"))
  }

  /** The operation loop over a list of operations, first to last. */
  function ApplySeq(u: User, ops: seq<Json>): (r: Result<User, Exception>)
    ensures r.Success? <==> forall i :: 0 <= i < |ops| ==> WellFormedOp(ops[i])
    decreases |ops|
  {
    if |ops| == 0 then Success(u)
    else
      var u1 :- ApplyOperation(u, ops[0]);
      ApplySeq(u1, ops[1..])
  }

  /** `for operation in patch_resource['Operations']`. A dict or a str
      iterates as strings, and a string operation always raises TypeError
      (`operation['op']` or `operation['value']` subscripts a str with a str),
      so only an empty one gets through; other values are not iterable. */
  function ApplyOperations(u: User, operations: Json): (r: Result<User, Exception>)
    ensures operations.JArray? ==> r == ApplySeq(u, operations.items)
    ensures r.Success? ==> operations.JArray? || r == Success(u)
    ensures !operations.JArray? ==>
              r == (if operations == JObject(map[]) || operations == JString("") then Success(u)
                    else Failure(TypeError))
  {
    match operations
    case JArray(xs) => ApplySeq(u, xs)
    case JObject(m) => if |m| == 0 then Success(u) else Failure(TypeError)
    case JString(s) => if |s| == 0 then Success(u) else Failure(TypeError)
    case _ => Failure(TypeError)
  }

  /** The `value` object of a well-formed operation. */
  function ValueOf(op: Json): map<string, Json>
    requires WellFormedOp(op)
  {
    op.fields["value"].fields
  }

  /** An attribute no operation assigns keeps its value. */
  lemma {:induction false} ApplySeqUntouched(u: User, ops: seq<Json>, k: string)
    requires ApplySeq(u, ops).Success?
    requires forall i :: 0 <= i < |ops| ==> k !in ValueOf(ops[i])
    ensures Attr(ApplySeq(u, ops).value, k) == Attr(u, k)
    decreases |ops|
  {
    if |ops| > 0 {
      assert WellFormedOp(ops[0]);
      var u1 := AssignAll(u, ValueOf(ops[0]));
      assert ApplySeq(u, ops) == ApplySeq(u1, ops[1..]);
      ApplySeqUntouched(u1, ops[1..], k);
    }
  }

  /** Later operations overwrite earlier ones: an attribute ends with the
      value of the last operation that assigns it. */
  lemma {:induction false} ApplySeqLastWriteWins(u: User, ops: seq<Json>, k: string, i: nat)
    requires ApplySeq(u, ops).Success?
    requires i < |ops| && k in ValueOf(ops[i])
    requires forall j :: i < j < |ops| ==> k !in ValueOf(ops[j])
    ensures Attr(ApplySeq(u, ops).value, k) == Some(ValueOf(ops[i])[k])
    decreases i
  {
    assert WellFormedOp(ops[0]);
    var u1 := AssignAll(u, ValueOf(ops[0]));
    assert ApplySeq(u, ops) == ApplySeq(u1, ops[1..]);
    assert forall j :: i - 1 < j < |ops| - 1 ==> ops[1..][j] == ops[j + 1];
    if i == 0 {
      ApplySeqUntouched(u1, ops[1..], k);
    } else {
      ApplySeqLastWriteWins(u1, ops[1..], k, i - 1);
    }
  }

  /** The value of `op` makes no difference: "remove" or "add" is applied
      exactly as "replace" is. */
  lemma OpValueIgnored(u: User, op: Json, kind: Json)
    requires op.JObject? && "op" in op.fields
    ensures ApplyOperation(u, JObject(op.fields["op" := kind])) == ApplyOperation(u, op)
  {
  }

  /** The part of `users_patch` after the checks: look the user up, run the
      loop over `operations`, write the row back and answer with its
      projection. Only the found row changes. */
  function PatchUser(store: seq<User>, userId: string, operations: Json, locate: Json -> string)
    : (r: Result<Exchange, Exception>)
    ensures FindById(store, userId).Failure? ==> r == Failure(FindById(store, userId).error)
    ensures FindById(store, userId).Success? ==>
              var i := FindById(store, userId).value;
              && (r.Success? <==> ApplyOperations(store[i], operations).Success?)
              && (r.Success? ==>
                    && r.value.status == 200
                    && r.value.store == store[i := Row(ApplyOperations(store[i], operations).value)]
                    && r.value.body == JsonBody(Users.ToScimResource(r.value.store[i], locate))
                    && r.value.location.None?)
  {
    var i :- FindById(store, userId);
    var u :- ApplyOperations(store[i], operations);
    Success(Exchange(store[i := Row(u)], 200, JsonBody(Users.ToScimResource(u, locate)), None))
  }

  /** `users_patch(user_id)`: the checks, and only when they pass, the lookup
      and the loop. */
  function UsersPatch(store: seq<User>, userId: string, body: Json, locate: Json -> string)
    : (r: Result<Exchange, Exception>)
    ensures Validate(body).Failure? ==> r == Failure(Validate(body).error)
    ensures Validate(body).Success? && Validate(body).value.Reject? ==>
              r == Success(Exchange(store, Validate(body).value.status,
                                    TextBody(Validate(body).value.message), None))
    ensures Validate(body) == Success(Proceed) ==>
              r == PatchUser(store, userId, body.fields["Operations"], locate)
  {
    var verdict :- Validate(body);
    if verdict.Reject? then
      Success(Exchange(store, verdict.status, TextBody(verdict.message), None))
    else
      // the checks passed, so the body is a dict holding `Operations`
      PatchUser(store, userId, body.fields["Operations"], locate)
  }

  /** A request the checks reject gets the same answer whatever the table
      holds and whichever id it names, because the lookup comes after the
      checks; the table is left as it was. */
  lemma RejectedBeforeLookup(store1: seq<User>, id1: string, store2: seq<User>, id2: string,
                             body: Json, locate: Json -> string)
    requires Validate(body).Success? && Validate(body).value.Reject?
    ensures UsersPatch(store1, id1, body, locate).Success?
    ensures UsersPatch(store1, id1, body, locate).value.store == store1
    ensures UsersPatch(store1, id1, body, locate).value.status
            == UsersPatch(store2, id2, body, locate).value.status
    ensures UsersPatch(store1, id1, body, locate).value.body
            == UsersPatch(store2, id2, body, locate).value.body
  {
  }

  /** An operation may assign `id` itself, so a PATCH can move a row to a
      new id. */
  lemma PatchCanRewriteId(store: seq<User>, userId: string, newId: Json, locate: Json -> string)
    requires FindById(store, userId).Success?
    ensures var body := JObject(map[
              "schemas" := JArray([JString(PatchOpSchema)]),
              "Operations" := JArray([JObject(map[
                "op" := JString("replace"),
                "value" := JObject(map["id" := newId])])])]);
            var r := UsersPatch(store, userId, body, locate);
            r.Success? && r.value.store[FindById(store, userId).value].id == newId
  {
    var value := map["id" := newId];
    var op := JObject(map["op" := JString("replace"), "value" := JObject(value)]);
    var body := JObject(map[
      "schemas" := JArray([JString(PatchOpSchema)]),
      "Operations" := JArray([op])]);
    assert Validate(body) == Success(Proceed);
    var i := FindById(store, userId).value;
    assert WellFormedOp(op);
    var u := AssignAll(store[i], value);
    assert ApplySeq(store[i], [op]) == ApplySeq(u, []);
    assert Attr(u, "id") == Some(newId);
    assert UsersPatch(store, userId, body, locate).value.store[i] == Row(u);
  }
}

=== FILE: python.dfy ===
/** The few pieces of Python semantics the server leans on when it handles a
    decoded JSON body: the `in` operator, subscripting with a string key,
    truthiness of an optional integer, and `str()` of an integer. */
module Python {
  import opened Wrappers
  import opened JsonValue

  /** The exceptions that escape a request handler (Flask answers each with a
      500 response). `NoResultFound` and `MultipleResultsFound` are raised by
      the ORM's `.one()`. */
  datatype Exception =
    | KeyError(key: string)
    | TypeError
    | AttributeError(name: string)
    | NoResultFound
    | MultipleResultsFound

  /** `needle` occurs in `hay` starting at position `i`. */
  predicate OccursAt(needle: string, hay: string, i: int) {
    0 <= i && i + |needle| <= |hay| && hay[i..i + |needle|] == needle
  }

  /** `needle in hay` for two `str` values: true exactly when `needle` occurs
      somewhere in `hay`. */
  function IsSubstring(needle: string, hay: string): (b: bool)
    ensures b <==> exists i :: OccursAt(needle, hay, i)
    ensures needle <= hay ==> b
    ensures b ==> |needle| <= |hay|
    decreases |hay|
  {
    if needle <= hay then
      assert OccursAt(needle, hay, 0);
      true
    else if |hay| == 0 then
      false
    else
      var b := IsSubstring(needle, hay[1..]);
      assert forall i :: OccursAt(needle, hay[1..], i) ==> OccursAt(needle, hay, i + 1);
      assert forall i :: OccursAt(needle, hay, i) && i >= 1 ==> OccursAt(needle, hay[1..], i - 1);
      b
  }

  /** `key in container` where `key` is a `str`: key membership for a dict,
      element membership for a list, substring test for a str; any other
      operand raises TypeError. */
  function Contains(container: Json, key: string): (r: Result<bool, Exception>)
    ensures r.Success? <==> container.JObject? || container.JArray? || container.JString?
    ensures container.JObject? ==> r == Success(key in container.fields.Keys)
    ensures container.JArray? ==>
              r == Success(exists i :: 0 <= i < |container.items| && container.items[i] == JString(key))
    ensures container.JString? ==> r == Success(exists i :: OccursAt(key, container.s, i))
    ensures !(container.JObject? || container.JArray? || container.JString?) ==> r == Failure(TypeError)
    ensures container.JString? && key <= container.s ==> r == Success(true)
    ensures container.JString? && |container.s| < |key| ==> r == Success(false)
  {
    match container
    case JObject(m) => Success(key in m)
    case JArray(xs) => Success(JString(key) in xs)
    case JString(s) => Success(IsSubstring(key, s))
    case _ => Failure(TypeError)
  }

  /** `container[key]` where `key` is a `str`: only a dict accepts it, and a
      missing key raises KeyError. */
  function Index(container: Json, key: string): (r: Result<Json, Exception>)
    ensures r.Success? <==> container.JObject? && key in container.fields
    ensures r.Success? ==> r.value == container.fields[key]
    ensures container.JObject? && key !in container.fields ==> r == Failure(KeyError(key))
    ensures !container.JObject? ==> r == Failure(TypeError)
  {
    match container
    case JObject(m) => if key in m then Success(m[key]) else Failure(KeyError(key))
    case _ => Failure(TypeError)
  }

  /** Truthiness of a value that is either `None` or an `int`. */
  function Truthy(x: Option<int>): (b: bool)
    ensures b <==> x != None && x != Some(0)
  {
    x.Some? && x.value != 0
  }

  predicate IsDigit(c: char) {
    '0' <= c <= '9'
  }

  predicate AllDigits(s: string) {
    forall i :: 0 <= i < |s| ==> IsDigit(s[i])
  }

  function DigitChar(d: nat): (c: char)
    requires d < 10
    ensures IsDigit(c)
  {
    (d + '0' as int) as char
  }

  function DigitValue(c: char): (d: nat)
    requires IsDigit(c)
    ensures d < 10
  {
    c as int - '0' as int
  }

  /** Decimal digits of `n`, most significant first: `str(n)` for `n >= 0`. */
  function NatToDecimal(n: nat): (s: string)
    ensures |s| >= 1 && AllDigits(s)
    ensures s[0] == '0' ==> n == 0
    decreases n
  {
    if n < 10 then [DigitChar(n)] else NatToDecimal(n / 10) + [DigitChar(n % 10)]
  }

  /** `str(n)` for any integer. */
  function IntToDecimal(n: int): (s: string)
    ensures |s| >= 1
    ensures s[0] == '-' <==> n < 0
    ensures AllDigits(if n < 0 then s[1..] else s)
  {
    if n < 0 then "-" + NatToDecimal(-n) else NatToDecimal(n)
  }

  /** The value of a run of decimal digits. */
  function DigitsValue(s: string): nat
    requires AllDigits(s)
    decreases |s|
  {
    if |s| == 0 then 0 else DigitsValue(s[..|s| - 1]) * 10 + DigitValue(s[|s| - 1])
  }

  /** `int(s)` restricted to an optional minus sign followed by digits;
      `None` where Python would raise ValueError. */
  function ParseDecimal(s: string): Option<int> {
    if |s| >= 2 && s[0] == '-' && AllDigits(s[1..]) then Some(0 - DigitsValue(s[1..]) as int)
    else if |s| >= 1 && AllDigits(s) then Some(DigitsValue(s))
    else None
  }

  lemma {:induction false} NatToDecimalValue(n: nat)
    ensures DigitsValue(NatToDecimal(n)) == n
    decreases n
  {
    if n >= 10 {
      var prefix := NatToDecimal(n / 10);
      var s := prefix + [DigitChar(n % 10)];
      assert s[..|s| - 1] == prefix;
      NatToDecimalValue(n / 10);
    }
  }

  /** `int(str(n)) == n`: the decimal text of an integer reads back as it. */
  lemma IntToDecimalRoundTrip(n: int)
    ensures ParseDecimal(IntToDecimal(n)) == Some(n)
  {
    if n < 0 {
      var digits := NatToDecimal(-n);
      assert ("-" + digits)[1..] == digits;
      NatToDecimalValue(-n);
    } else {
      NatToDecimalValue(n);
    }
  }
}

=== FILE: store.dfy ===
/** The users table as an ordered sequence of rows, and the lookup
    `User.query.filter_by(id=user_id).one()`. */
module Store {
  import opened Wrappers
  import opened JsonValue
  import opened Python
  import opened Users

  /** The positions of the rows whose `id` is `id`, in increasing order. */
  function IdHits(store: seq<User>, id: Json): (hits: seq<nat>)
    ensures forall k :: 0 <= k < |hits| ==> hits[k] < |store| && store[hits[k]].id == id
    ensures forall i :: 0 <= i < |store| && store[i].id == id ==> i in hits
    ensures forall k, l :: 0 <= k < l < |hits| ==> hits[k] < hits[l]
    decreases |store|
  {
    if |store| == 0 then []
    else
      var hits := IdHits(store[..|store| - 1], id);
      if store[|store| - 1].id == id then hits + [|store| - 1] else hits
  }

  /** `.one()` on the rows with the given id: the position of the only such
      row, NoResultFound when there is none, MultipleResultsFound when there
      are several. */
  function FindById(store: seq<User>, userId: string): (r: Result<nat, Exception>)
    ensures r.Success? ==> r.value < |store| && store[r.value].id == JString(userId)
    ensures r.Success? ==> forall j :: 0 <= j < |store| && j != r.value ==> store[j].id != JString(userId)
    ensures forall i :: 0 <= i < |store| && store[i].id == JString(userId)
              && (forall j :: 0 <= j < |store| && j != i ==> store[j].id != JString(userId))
              ==> r == Success(i)
    ensures r == Failure(NoResultFound) <==> forall i :: 0 <= i < |store| ==> store[i].id != JString(userId)
    ensures r.Failure? ==> r.error == NoResultFound || r.error == MultipleResultsFound
  {
    var hits := IdHits(store, JString(userId));
    if |hits| == 0 then Failure(NoResultFound)
    else if |hits| == 1 then Success(hits[0])
    else
      assert hits[0] < hits[1];
      Failure(MultipleResultsFound)
  }

  /** No two rows share an id (the table's primary key). */
  predicate UniqueIds(store: seq<User>) {
    forall i, j :: 0 <= i < j < |store| ==> store[i].id != store[j].id
  }

  /** Over a table whose ids are unique, the lookup never finds several rows. */
  lemma UniqueIdsFindAtMostOne(store: seq<User>, userId: string)
    requires UniqueIds(store)
    ensures FindById(store, userId) != Failure(MultipleResultsFound)
  {
  }
}

=== FILE: users.dfy ===
/** The `User` resource: its columns, the field-copy rule shared by the
    constructor and PUT, the attribute assignment PATCH uses, and the SCIM
    projection of a user (the core User schema of RFC 7643 section 4.1). */
module Users {
  import opened Wrappers
  import opened JsonValue
  import opened Python

  const UserSchema: string := "urn:ietf:params:scim:schemas:core:2.0:User"

  /** One user. The six columns hold whatever JSON value was last assigned to
      them; `extras` holds attributes assigned under any other name, which
      live on the in-memory object only. */
  datatype User = User(
    id: Json,
    userName: Json,
    active: Json,
    givenName: Json,
    middleName: Json,
    familyName: Json,
    extras: map<string, Json>)

  /** The names of the table's columns. */
  const Columns: set<string> := {"id", "userName", "active", "givenName", "middleName", "familyName"}

  /** `extras` never shadows a column. */
  predicate Valid(u: User) {
    forall k :: k in u.extras ==> k !in Columns
  }

  /** A freshly constructed user before any field is copied in: every column
      reads as None and there are no other attributes. */
  function Blank(): (u: User)
    ensures Valid(u)
    ensures forall k :: k in Columns ==> Attr(u, k) == Some(JNull)
    ensures forall k :: k !in Columns ==> Attr(u, k) == None
  {
    User(JNull, JNull, JNull, JNull, JNull, JNull, map[])
  }

  /** What the database keeps of a user: its columns. */
  function Row(u: User): (r: User)
    ensures Valid(r)
  {
    u.(extras := map[])
  }

  /** `getattr(user, key)`, `None` when the instance has no such attribute. */
  function Attr(u: User, key: string): (r: Option<Json>)
    ensures r.Some? <==> key in Columns || key in u.extras
    ensures key !in Columns && key in u.extras ==> r == Some(u.extras[key])
  {
    if key == "id" then Some(u.id)
    else if key == "userName" then Some(u.userName)
    else if key == "active" then Some(u.active)
    else if key == "givenName" then Some(u.givenName)
    else if key == "middleName" then Some(u.middleName)
    else if key == "familyName" then Some(u.familyName)
    else if key in u.extras then Some(u.extras[key])
    else None
  }

  /** `setattr(user, key, v)`: the named attribute reads back as `v` and no
      other attribute changes. */
  function SetAttr(u: User, key: string, v: Json): (r: User)
    ensures Attr(r, key) == Some(v)
    ensures forall k :: k != key ==> Attr(r, k) == Attr(u, k)
    ensures key in Columns ==> r.extras == u.extras
    ensures Valid(u) ==> Valid(r)
  {
    if key == "id" then u.(id := v)
    else if key == "userName" then u.(userName := v)
    else if key == "active" then u.(active := v)
    else if key == "givenName" then u.(givenName := v)
    else if key == "middleName" then u.(middleName := v)
    else if key == "familyName" then u.(familyName := v)
    else u.(extras := u.extras[key := v])
  }

  /** Two valid users with the same attributes are the same user. */
  lemma AttrExtensional(a: User, b: User)
    requires Valid(a) && Valid(b)
    requires forall k :: Attr(a, k) == Attr(b, k)
    ensures a == b
  {
    assert Attr(a, "id") == Attr(b, "id");
    assert Attr(a, "userName") == Attr(b, "userName");
    assert Attr(a, "active") == Attr(b, "active");
    assert Attr(a, "givenName") == Attr(b, "givenName");
    assert Attr(a, "middleName") == Attr(b, "middleName");
    assert Attr(a, "familyName") == Attr(b, "familyName");
    forall k | k in a.extras
      ensures k in b.extras && a.extras[k] == b.extras[k]
    {
      assert Attr(a, k) == Attr(b, k);
    }
    forall k | k in b.extras
      ensures k in a.extras
    {
      assert Attr(a, k) == Attr(b, k);
    }
  }

  /** `if key in src: setattr(user, key, src[key])`. */
  function CopyIfPresent(u: User, src: Json, key: string): (r: Result<User, Exception>)
    requires key in Columns - {"id"}
    ensures src.JObject? ==> r == Success(if key in src.fields then SetAttr(u, key, src.fields[key]) else u)
    ensures r.Success? ==> r.value.id == u.id && r.value.extras == u.extras
    ensures r.Success? ==> src.JObject? || src.JArray? || src.JString?
    ensures !(src.JObject? || src.JArray? || src.JString?) ==> r == Failure(TypeError)
    ensures src.JArray? || src.JString? ==>
              r == (if Contains(src, key).value then Failure(TypeError) else Success(u))
  {
    var present :- Contains(src, key);
    if present then
      var v :- Index(src, key);
      Success(SetAttr(u, key, v))
    else
      Success(u)
  }

  /** The value `m` gives `key`, or `dflt` when `m` has no such key. */
  function Pick(m: map<string, Json>, key: string, dflt: Json): Json {
    if key in m then m[key] else dflt
  }

  /** `User.update(resource)`: copy `userName` and `active` when the body has
      them, then copy each of `givenName`, `middleName`, `familyName` that is
      present under `name`. A body without `name` raises KeyError, and a body
      that is not a JSON object always raises. */
  function Update(u: User, resource: Json): (r: Result<User, Exception>)
    ensures r.Success? ==> r.value.id == u.id && r.value.extras == u.extras
    ensures r.Success? ==> resource.JObject? && "name" in resource.fields
    ensures resource.JObject? && "name" !in resource.fields ==> r == Failure(KeyError("name"))
    ensures resource.JObject? && "name" in resource.fields
            && (resource.fields["name"].JNull? || resource.fields["name"].JBool? || resource.fields["name"].JInt?)
            ==> r == Failure(TypeError)
    ensures resource.JObject? && "name" in resource.fields && resource.fields["name"].JObject? ==>
              var top := resource.fields;
              var name := resource.fields["name"].fields;
              r.Success?
              && r.value.userName == Pick(top, "userName", u.userName)
              && r.value.active == Pick(top, "active", u.active)
              && r.value.givenName == Pick(name, "givenName", u.givenName)
              && r.value.middleName == Pick(name, "middleName", u.middleName)
              && r.value.familyName == Pick(name, "familyName", u.familyName)
  {
    var u1 :- CopyIfPresent(u, resource, "userName");
    var u2 :- CopyIfPresent(u1, resource, "active");
    var name :- Index(resource, "name");
    var u3 :- CopyIfPresent(u2, name, "givenName");
    var u4 :- CopyIfPresent(u3, name, "middleName");
    CopyIfPresent(u4, name, "familyName")
  }

  /** Applying the same body twice is the same as applying it once. */
  lemma UpdateIdempotent(u: User, resource: Json)
    requires Update(u, resource).Success?
    ensures Update(Update(u, resource).value, resource) == Update(u, resource)
  {
  }

  /** The row POST stores: `User(resource)`, the id assignment, and the
      insert. The ORM leaves a None attribute out of the INSERT when its
      column has a default, so an `active` that is None (never copied, or
      copied as null) is stored as the default `False`. */
  function NewUser(resource: Json, freshId: string): (r: Result<User, Exception>)
    ensures r.Success? <==> Update(Blank(), resource).Success?
    ensures r.Success? ==> r.value.id == JString(freshId) && r.value.extras == map[]
    ensures r.Success? ==> r.value.active != JNull
    ensures r.Success? ==>
              var u := Update(Blank(), resource).value;
              && r.value.active == (if u.active == JNull then JBool(false) else u.active)
              && r.value.userName == u.userName
              && r.value.givenName == u.givenName
              && r.value.middleName == u.middleName
              && r.value.familyName == u.familyName
  {
    var u :- Update(Blank(), resource);
    Success(u.(id := JString(freshId), active := if u.active == JNull then JBool(false) else u.active))
  }

  /** The shape every user projection has: the core User schema URN, the
      identifying fields, a `name` object with all three sub-keys, and a
      `meta` object whose `resourceType` is "User". */
  predicate IsUserResource(j: Json) {
    && j.JObject?
    && j.fields.Keys == {"schemas", "id", "userName", "name", "active", "meta"}
    && j.fields["schemas"] == JArray([JString(UserSchema)])
    && j.fields["name"].JObject?
    && j.fields["name"].fields.Keys == {"familyName", "givenName", "middleName"}
    && j.fields["meta"].JObject?
    && j.fields["meta"].fields.Keys == {"resourceType", "location"}
    && j.fields["meta"].fields["resourceType"] == JString("User")
  }

  /** `User.to_scim_resource()`. `locate` stands for the URL builder of the
      web framework, which maps a user id to the user's canonical URL. */
  function ToScimResource(u: User, locate: Json -> string): (r: Json)
    ensures IsUserResource(r)
    ensures r.fields["id"] == u.id && r.fields["userName"] == u.userName && r.fields["active"] == u.active
    ensures r.fields["name"].fields["givenName"] == u.givenName
    ensures r.fields["name"].fields["middleName"] == u.middleName
    ensures r.fields["name"].fields["familyName"] == u.familyName
    ensures r.fields["meta"].fields["location"] == JString(locate(u.id))
  {
    JObject(map[
      "schemas" := JArray([JString(UserSchema)]),
      "id" := u.id,
      "userName" := u.userName,
      "name" := JObject(map[
        "familyName" := u.familyName,
        "givenName" := u.givenName,
        "middleName" := u.middleName]),
      "active" := u.active,
      "meta" := JObject(map[
        "resourceType" := JString("User"),
        "location" := JString(locate(u.id))])])
  }

  /** Reads the columns back out of a user projection. */
  function FromScimResource(j: Json): Option<User> {
    if IsUserResource(j) then
      var name := j.fields["name"].fields;
      Some(User(j.fields["id"], j.fields["userName"], j.fields["active"],
                name["givenName"], name["middleName"], name["familyName"], map[]))
    else
      None
  }

  /** The projection loses nothing the database keeps. */
  lemma ProjectionRoundTrip(u: User, locate: Json -> string)
    ensures FromScimResource(ToScimResource(u, locate)) == Some(Row(u))
  {
  }

  /** Feeding a user's projection back as a PUT body copies all of that
      user's fields except `id` onto the target. */
  lemma UpdateFromProjection(v: User, u: User, locate: Json -> string)
    ensures Update(v, ToScimResource(u, locate)) ==
            Success(v.(userName := u.userName, active := u.active, givenName := u.givenName,
                       middleName := u.middleName, familyName := u.familyName))
  {
  }

  /** A created user projects to the values of the creation body, to null
      where the body is silent, and to `active == false` where the body has
      no `active` or a null one. */
  lemma CreateThenProject(resource: Json, freshId: string, locate: Json -> string)
    requires resource.JObject? && "name" in resource.fields && resource.fields["name"].JObject?
    ensures NewUser(resource, freshId).Success?
    ensures var p := ToScimResource(NewUser(resource, freshId).value, locate).fields;
            var top := resource.fields;
            var name := resource.fields["name"].fields;
            && p["id"] == JString(freshId)
            && p["userName"] == Pick(top, "userName", JNull)
            && p["active"] == (if "active" in top && top["active"] != JNull then top["active"] else JBool(false))
            && p["name"].fields["givenName"] == Pick(name, "givenName", JNull)
            && p["name"].fields["middleName"] == Pick(name, "middleName", JNull)
            && p["name"].fields["familyName"] == Pick(name, "familyName", JNull)
  {
  }
}

=== FILE: wrappers.dfy ===
/** Failure-compatible result types shared by every module of the model. */
module Wrappers {

  /** An optional value: Python's `None` or a present value. */
  datatype Option<+T> = None | Some(value: T) {

    /** The value when present, `default` otherwise (`dict.get(key, default)`). */
    function GetOr(default: T): T {
      match this
      case Some(v) => v
      case None => default
    }
  }

  /** Either a value or the exception that escaped; usable with `:-`. */
  datatype Result<+R, +E> = Success(value: R) | Failure(error: E) {

    predicate IsFailure() {
      Failure?
    }

    function PropagateFailure<U>(): Result<U, E>
      requires Failure?
    {
      Failure(error)
    }

    function Extract(): R
      requires Success?
    {
      value
    }
  }
}
